=== FILE: README.md ===
# Supabase service facades — a Dafny model

The repository wraps a backend-as-a-service client library in three facades:
`SupabaseAuth` (sign-in, sign-up, sign-out, user lookup, e-mail resend, token
refresh, login check), `SupabaseDatabase` (select, update, insert, delete on a
named table, with equality filters) and `SupabaseStorage` (bucket and object
operations). Every facade method returns a `GenericResponse` envelope
(status, message, optional data, optional count) in most cases. The only logic
the code owns sits in front of each remote call:

- guard chains: required arguments are checked in a fixed order with
  `not s or not s.strip()` (or `not x` for lists and dicts). The first one
  that fails gives status 400 with its own message, and no remote call is made.
  The exceptions are `get_bucket`, which returns `None`, and `is_logged_in`,
  which returns `False`;
- status mapping: the remote outcome becomes 200, 201, 400 or 500, depending
  on the method;
- object-path composition: `bucket_path` gains a trailing `/` when it lacks one,
  then the file name is appended;
- bucket gating: existence and duplicate checks decide whether the remote
  create, delete or object operation is attempted;
- query filters: a `where` dict becomes one equality filter per entry.

The model is functional. Each facade method is a pure function. It takes the
method's arguments and the `Outcome` of each remote step (`Ok(value)` or
`Fault(message)`, the latter standing for an exception whose `str(e)` is
`message`). It returns a `Traced(result, calls)`, where `calls` lists the
remote calls the method issued, in order. Python arguments that may be `None`
are `Option`s. Methods that do not always return an envelope return a `Reply`:
an envelope, a bare `None`, a bare string, or an exception that escapes to the
caller.

Files, one module each: `wrappers.dfy` (Option, Outcome, Traced), `text.dfy`
(`str.strip`, the blank test, `str(int)` and its inverse), `types.dfy`
(`GenericResponse`, `Reply`, `__str__`), `auth.dfy`, `database.dfy`,
`storage.dfy`.

The model keeps these behaviours of the code as they are:

- `resend_mail` has no `try`, so a remote fault escapes as an exception rather
  than becoming an envelope.
- `upload_file` never reaches the bucket lookup, because `bucket_path > 0`
  raises (see Findings).
- The other four object operations never issue their remote call (see Findings).
- `create_bucket` returns the bare fault text when the remote create fails, and
  `delete_bucket` lets a fault of the remote delete escape.
- `list_files` lets a fault of the bucket listing escape.
- `update_file` returns `None` for an unknown bucket.

## Model

| member | source | states |
|---|---|---|
| Text.BlankIffAllSpace | supabase_service/auth.py:23 | the guard `not s or not s.strip()` holds exactly for `None` and for strings made only of whitespace, the empty string included |
| Text.StripEmptyIffAllSpace | supabase_service/storage.py:29 | `s.strip()` is empty exactly when every character of `s` is whitespace |
| Text.TrimLeft | supabase_service/storage.py:29 | left strip drops an all-whitespace prefix and leaves a string that is empty or starts with a non-space |
| Text.TrimRight | supabase_service/storage.py:29 | right strip drops an all-whitespace suffix and leaves a string that is empty or ends with a non-space |
| Text.DecimalRoundTrip | supabase_service/types.py:9 | the decimal text `str(n)` of any integer reads back as that integer |
| Types.Response | supabase_service/types.py:2-6 | the constructor keeps status and message as given, and keeps data and count as given |
| Types.ResponseDefaults | supabase_service/types.py:2-6 | data and count are `None` when the caller omits them |
| Types.Render | supabase_service/types.py:8-9 | the string form is exactly the status's decimal text, " - ", the message, then " - " and the data's text, then " - " and the count's text: the status-and-message head is a prefix, the data-and-count tail a suffix, and nothing lies between them |
| Types.RenderEndings | supabase_service/types.py:8-9 | the string form ends in " - None" when there is no count, in " - None - None" when there is neither data nor count, and otherwise in the count's decimal text |
| Types.RenderStatusRoundTrip | supabase_service/types.py:8-9 | the first field of the string form reads back as the envelope's status |
| Auth.SignIn | supabase_service/auth.py:16-41 | email is checked before password, each with its own 400 message and no remote call; otherwise exactly one sign-in call with those credentials; 200 exactly when the call succeeds with both a user and a session, with user_id, tokens, expiry, token type and status 200 as data; a remote fault gives 500 with its text, and a missing user or session gives 500 with the `AttributeError` text. Each envelope is stated in full, with its exact message and data, and a count only where the service reports one |
| Auth.SignUp | supabase_service/auth.py:43-63 | same guards as sign-in; 201 with the remote response exactly when the single sign-up call succeeds; 500 with the fault text exactly when it fails. Each envelope is stated in full, with its exact message and data, and a count only where the service reports one |
| Auth.SignOut | supabase_service/auth.py:65-70 | always one sign-out call; returns `None` on success and lets the fault escape otherwise |
| Auth.GetUser | supabase_service/auth.py:72-86 | a blank token gives 400 "Access token is required" and no call; 200 with the user exactly when the lookup succeeds; 400 (not 500) with the fault text when it fails. Each envelope is stated in full, with its exact message and data, and a count only where the service reports one |
| Auth.ResendMail | supabase_service/auth.py:88-101 | a blank email gives 400 and no call; otherwise one resend call, 200 when it returns and the fault escaping when it raises; no envelope has a status other than 200 or 400 |
| Auth.RefreshToken | supabase_service/auth.py:103-115 | a blank token gives 400 "Refresh token is required" and no call; 200 exactly on success, 500 with the fault text exactly on fault. Each envelope is stated in full, with its exact message and data, and a count only where the service reports one |
| Auth.IsLoggedIn | supabase_service/auth.py:117-127 | false for a blank token with no call; true for every non-blank token whatever the lookup returns, with the same calls as `get_user` |
| Auth.IsLoggedInIntended | supabase_service/auth.py:117-127 | logged in exactly when the token is non-blank and the user lookup returns 200, with exactly `get_user`'s calls |
| Auth.RejectedTokenStillLoggedIn | supabase_service/auth.py:117-127 | for every non-blank token whose user lookup fails, whatever the fault, the lookup reports 400 and the login check as written still answers true, while the intended check answers false |
| Auth.ExpiredTokenStillLoggedIn | supabase_service/auth.py:117-127 | the token "expired" with the lookup failing as "invalid JWT" is logged in as written and not logged in as intended |
| Database.FiltersOf | supabase_service/database.py:34-36 | one equality filter per `where` entry, in entry order, with that entry's column and value |
| Database.EqualityFilters | supabase_service/database.py:34-36 | no filters when `where` is `None` or empty; otherwise exactly one equality filter per entry |
| Database.SatisfiesIffMatchesAll | supabase_service/database.py:77-79 | the filters built from `where` admit exactly the rows that agree with every entry (the filters are AND-ed), under value equality in which a NULL filter value matches a NULL column |
| Database.FilterOrderIrrelevant | supabase_service/database.py:125-127 | two `where` arguments with the same entries in any order admit the same rows |
| Database.SelectAll | supabase_service/database.py:14-42 | table name is checked before the column list, each with its own 400 and no call; otherwise one select of those columns with the given count mode and the `where` filters; 200 exactly on success, with the response's rows and count; 500 with the fault text exactly on fault. Each envelope is stated in full, with its exact message and data, and a count only where the service reports one |
| Database.DefaultSelect | supabase_service/database.py:14-15 | with only a table name, the select covers all columns with exact counting and no filter, and success reports the rows and the count |
| Database.SelectById | supabase_service/database.py:44-55 | a falsy id gives 400 "ID is required" with no call, whatever the other arguments; otherwise the result is that of `select_all` with `where={"id": id}` and counting off |
| Database.SelectByIdFiltersOnId | supabase_service/database.py:51-55 | a select by a present id sends the single filter `id = id` and so admits exactly the rows with that id |
| Database.Update | supabase_service/database.py:57-85 | table, then set, then where are checked, each with its own 400 message and no call; otherwise one update with those values filtered on every `where` entry; 200 on success, 500 with the fault text on fault. Each envelope is stated in full, with its exact message and data, and a count only where the service reports one |
| Database.EmptySetRejected | supabase_service/database.py:67-68 | an empty set gives 400 "Set is required" with no call, whatever `where` holds |
| Database.Insert | supabase_service/database.py:87-107 | table, then values, are checked; otherwise one insert with no filter; 201 on success, 500 with the fault text on fault. Each envelope is stated in full, with its exact message and data, and a count only where the service reports one |
| Database.Delete | supabase_service/database.py:109-133 | table, then where, are checked; otherwise one delete filtered on every `where` entry; 200 on success, 500 with the fault text on fault. Each envelope is stated in full, with its exact message and data, and a count only where the service reports one |
| Storage.NormalizeDir | supabase_service/storage.py:159-160 | an empty directory stays empty; a non-empty one ends in "/" afterwards; a "/" is added only when missing, and at most one |
| Storage.NormalizeDirIdempotent | supabase_service/storage.py:201-202 | normalising an already normalised directory changes nothing |
| Storage.ObjectPath | supabase_service/storage.py:159-165 | with no or an empty directory the path is the file name; otherwise the directory is a prefix, the file name a suffix, exactly one "/" separates them, and it is added only when the directory lacks it |
| Storage.ObjectPathNormalizedInput | supabase_service/storage.py:201-207 | passing a directory that already ends in "/" gives the same object path as passing it without |
| Storage.ObjectPathSplits | supabase_service/storage.py:204-207 | removing the file name from the object path leaves exactly the normalised directory |
| Storage.ListBuckets | supabase_service/storage.py:13-21 | one listing call; 200 with the listed buckets exactly on success, 500 with the fault text on fault. Each envelope is stated in full, with its exact message and data, and a count only where the service reports one |
| Storage.CreateBucket | supabase_service/storage.py:23-49 | id, then name, are checked with no call; then the buckets are listed: a listing that is not 200 gives 400 "Buckets not found", a listed id 400 "Bucket already exists"; the remote create is issued exactly when the id is new, giving 201 with the created bucket, or the bare fault text. Each envelope is stated in full, with its exact message and data, and a count only where the service reports one |
| Storage.CreateTwiceRejected | supabase_service/storage.py:35-41 | once the listing shows a bucket with the id, a second create gives 400 "Bucket already exists" and issues no create |
| Storage.GetBucket | supabase_service/storage.py:72-85 | a blank id gives `None` rather than an envelope, and no call; otherwise one lookup: 200 with the bucket exactly on success, 400 with the fault text on fault. Each envelope is stated in full, with its exact message and data, and a count only where the service reports one |
| Storage.DeleteBucket | supabase_service/storage.py:51-70 | a blank id gives 400 with no call; a failed lookup gives 400 "Bucket not found" and no delete; the delete is issued exactly when the lookup succeeds, giving 200 "Bucket removed!", or the fault escaping |
| Storage.ListFiles | supabase_service/storage.py:87-100 | a blank id gives 400; a failed lookup gives 400 "Bucket not found"; otherwise the bucket is listed: 200 with the files, or the fault escaping |
| Storage.UploadFile | supabase_service/storage.py:102-142 | the guards run in the order bucket id, local path, file name, then the not-a-file check, each with its own 400; every input that passes them raises `TypeError`; no remote call is ever made |
| Storage.ObjectOnEnvelope | supabase_service/storage.py:167-177 | the lookup is the only call; `None` exactly when the lookup fails; a found bucket gives 400 with the `AttributeError` text for the named operation |
| Storage.DownloadFile | supabase_service/storage.py:144-177 | bucket id, then file name, are checked with no call; a failed lookup gives 400 "Bucket not found"; a found bucket gives 400 with the `AttributeError` text; the only remote call is the lookup |
| Storage.UpdateFile | supabase_service/storage.py:179-219 | the upload guards with no call; a failed lookup gives `None` instead of an envelope; a found bucket gives 400 with the `AttributeError` text |
| Storage.CopyFile | supabase_service/storage.py:221-249 | bucket id, then from path, then to path, are checked, each with its own 400 and no call; a failed lookup gives 400 "Bucket not found"; every path ends in 400 |
| Storage.MoveFile | supabase_service/storage.py:251-279 | the guards of copy in the same order; a failed lookup gives 400 "Bucket not found"; every path ends in 400 |
| Storage.BlankBucketIdRejected | supabase_service/storage.py:29-30 | every bucket-taking method gives 400 "Bucket ID is required" for a blank id before any remote call; `get_bucket` gives `None` |
| Storage.ObjectOnBucket | supabase_service/storage.py:167-177 | `None` exactly when the lookup fails, with the lookup as the only call; otherwise the lookup then the object call: the success status with the transferred content on success, 400 with the fault text on fault |
| Storage.UploadFileIntended | supabase_service/storage.py:124-142 | the upload guards; a failed lookup gives 400 "Bucket not found"; otherwise the file is uploaded to the composed object path: 201 exactly on success, 400 with the fault text on fault. Each envelope is stated in full, with its exact message and data, and a count only where the service reports one |
| Storage.DownloadFileIntended | supabase_service/storage.py:167-177 | the download guards; a failed lookup gives 400 "Bucket not found"; otherwise one download of the composed object path: 200 with the content exactly on success, 400 with the fault text on fault. Each envelope is stated in full, with its exact message and data, and a count only where the service reports one |
| Storage.UpdateFileIntended | supabase_service/storage.py:179-219 | the upload guards in order, each with its own 400 and no call; a failed lookup gives `None` with the lookup as the only call; otherwise one update of the composed object path: 200 exactly on success, 400 with the fault text on fault. Each envelope is stated in full, with its exact message and data, and a count only where the service reports one |
| Storage.CopyFileIntended | supabase_service/storage.py:239-249 | the copy guards; a failed lookup gives 400 "Bucket not found"; otherwise one copy between the given paths: 200 exactly on success, 400 with the fault text on fault. Each envelope is stated in full, with its exact message and data, and a count only where the service reports one |
| Storage.MoveFileIntended | supabase_service/storage.py:269-279 | the move guards; a failed lookup gives 400 "Bucket not found"; otherwise one move between the given paths: 200 exactly on success, 400 with the fault text on fault. Each envelope is stated in full, with its exact message and data, and a count only where the service reports one |
| Storage.UploadDiverges | supabase_service/storage.py:124 | for every upload that passes the guards, with a bucket that exists, the code as written raises with no call, while the intended upload reports 201 |
| Storage.DownloadDiverges | supabase_service/storage.py:173 | for every download that passes the guards, with a bucket that exists, the code as written gives 400 and downloads nothing, while the intended one returns the content |
| Storage.UpdateDiverges | supabase_service/storage.py:215 | the same divergence for update |
| Storage.CopyDiverges | supabase_service/storage.py:245 | the same divergence for copy |
| Storage.MoveDiverges | supabase_service/storage.py:275 | the same divergence for move |

## Findings

| source | as written | input that shows it | evidently intended | confidence | as-written member | corrected member |
|---|---|---|---|---|---|---|
| supabase_service/storage.py:124 | `bucket_path > 0` compares a `str` (or `None`) with an `int`. Python 3 raises `TypeError` there, outside any `try`, so no upload ever reaches the bucket lookup. The later call at line 138 is also made on the envelope, which would fail as well | `upload_file("b", "docs", "a.txt", "a.txt")` with a regular local file and an existing bucket | `if bucket_path and not bucket_path.endswith("/")`, as at lines 159 and 201, then `bucket.data.upload(...)` | high; not executed | Storage.UploadFile (shown by Storage.UploadDiverges) | Storage.UploadFileIntended |
| supabase_service/storage.py:173 | `bucket.download(...)` is called on the `GenericResponse` envelope; its `AttributeError` is caught and reported as 400 | `download_file("b", None, "a.txt")` with an existing bucket | call it on `bucket.data`, as `list_files` does at line 100 | high; not executed | Storage.DownloadFile (shown by Storage.DownloadDiverges) | Storage.DownloadFileIntended |
| supabase_service/storage.py:215 | `bucket.update(...)` on the envelope; `AttributeError` reported as 400 | `update_file("b", None, "a.txt", "a.txt")` with a regular local file and an existing bucket | call it on `bucket.data` | high; not executed | Storage.UpdateFile (shown by Storage.UpdateDiverges) | Storage.UpdateFileIntended |
| supabase_service/storage.py:245 | `bucket.copy(...)` on the envelope; `AttributeError` reported as 400 | `copy_file("b", "x", "y")` with an existing bucket | call it on `bucket.data` | high; not executed | Storage.CopyFile (shown by Storage.CopyDiverges) | Storage.CopyFileIntended |
| supabase_service/storage.py:275 | `bucket.move(...)` on the envelope; `AttributeError` reported as 400 | `move_file("b", "x", "y")` with an existing bucket | call it on `bucket.data` | high; not executed | Storage.MoveFile (shown by Storage.MoveDiverges) | Storage.MoveFileIntended |
| supabase_service/auth.py:127 | `user is not None` tests a value `get_user` never makes `None`, so every non-blank token counts as logged in | `is_logged_in("expired")` where the user lookup raises "invalid JWT" | logged in only when the lookup returns status 200 | medium; not executed | Auth.IsLoggedIn (shown by Auth.RejectedTokenStillLoggedIn) | Auth.IsLoggedInIntended |

## Left out

- Client bootstrap (`supabase_service/config.py`): reading the URL and key from the environment, `create_client` and the `isinstance` capability check are I/O and library plumbing. Each facade is modelled as already holding a client.
- `main.py`: an example script with no logic of its own.
- Remote semantics: sign-in tokens, query execution, bucket and object storage. Each remote step is an `Outcome` parameter. The model makes no upload/download round-trip claim and no row-count claim, because this code does not promise them.
- Exceptions raised while a query is built locally (`from_`, `select`, `eq`) are caught by the same `try` as `execute()`. They are folded into the query's `Fault` outcome.
- The option structs passed through untouched to the remote calls (sign-in, sign-up, sign-out and resend options) are not modelled.
- `join_strings` comes from `supabase_service/utils`, which is not part of this model. The select call records the column list itself rather than the joined string.
- `Database.Satisfies` treats a NULL filter value as equal to a NULL column. The database's `eq` never matches NULL, and that rule is not modelled.
- Whether the client library's `CountMethod` has a "none" member is outside this model. `select_by_id` is modelled as passing it. If the library lacked that member, the lookup at supabase_service/database.py:54, which is outside any `try`, would raise `KeyError` for every truthy id. The model does not cover that case.
- The filesystem checks `os.path.exists` / `os.path.isfile` (supabase_service/storage.py:121, 198) are the `LocalEntry` parameter.
- The `global path` assignments in the object operations change a module-level variable. Nothing in the repository reads it, so it is not modelled.
- `delete_bucket`'s `except` branch (supabase_service/storage.py:65-66) cannot be reached: `get_bucket` catches its own faults and only returns `None` for a blank id, which is already refused. The model has no such branch.
- Arguments of the wrong Python type (an `int` bucket id, say) are not modelled. String arguments are `Option<string>`, and dict arguments are ordered entry lists.
- How a payload prints inside `__str__` is decided by the library's classes. It is the `show` parameter of `Types.Render`.
- `IsSpace` lists the characters CPython 3's `str.isspace` accepts. No particular Unicode database version is modelled.
- Concurrency: the check-then-act race between listing and creating a bucket in `create_bucket` is not modelled. Each call is a single sequential run.

=== FILE: auth.dfy ===
/** The authentication facade (`SupabaseAuth`): each method checks its
    required arguments in a fixed order, makes at most one call into the
    remote auth client, and turns that call's outcome into an envelope.
    The remote call's outcome is a parameter; the `calls` of each result list
    the remote calls the method issued.
 */
module Auth {
  import opened Wrappers
  import opened Text
  import opened Types

  datatype User = User(id: string)

  datatype Session = Session(accessToken: string, refreshToken: string, expiresIn: int, tokenType: string)

  /** What the remote password sign-in returns; either part may be absent. */
  datatype AuthResponse = AuthResponse(user: Option<User>, session: Option<Session>)

  /** The two kinds of e-mail `resend_mail` accepts. */
  datatype ResendKind = Signup | EmailChange

  /** The calls this facade makes into the remote auth client. The option
      structs the methods pass through untouched are not modelled. */
  datatype AuthCall =
    | SignInWithPassword(email: string, password: string)
    | SignUpWithPassword(email: string, password: string)
    | SignOutSession
    | GetUserByToken(jwt: string)
    | ResendEmail(email: string, kind: ResendKind)
    | RefreshSession(refreshToken: string)

  /** The `data` a successful sign-in reports: the user id, the session's
      tokens and lifetime, and the status 200 repeated inside the payload. */
  function SignInData(user: User, session: Session): Data {
    SignedIn(user.id, session.accessToken, session.refreshToken, session.expiresIn, session.tokenType, 200)
  }

  /** `sign_in`: email, then password, must be non-blank; then one remote
      sign-in. Success with both a user and a session gives 200 and the token
      data; any exception inside the `try` (the remote fault, or reading a
      missing user or session) gives 500 with the exception's text. */
  function SignIn(email: Option<string>, password: Option<string>, outcome: Outcome<AuthResponse>): (r: Traced<Envelope, AuthCall>)
    ensures r.calls == [] <==> Blank(email) || Blank(password)
    ensures r.calls != [] ==> r.calls == [SignInWithPassword(email.value, password.value)]
    ensures Blank(email) ==> r.result == Response(400, "Email is required")
    ensures !Blank(email) && Blank(password) ==> r.result == Response(400, "Password is required")
    ensures r.result.status == 400 <==> r.calls == []
    ensures r.result.status == 200 <==>
              r.calls != [] && outcome.Ok? && outcome.value.user.Some? && outcome.value.session.Some?
    ensures r.result.status == 200 ==>
              r.result.data == Some(SignInData(outcome.value.user.value, outcome.value.session.value))
    ensures r.calls != [] && outcome.Fault? ==> r.result == Response(500, outcome.message)
    ensures r.calls != [] && outcome.Ok? && outcome.value.user.Some? && outcome.value.session.Some? ==>
              r.result == Response(200, "Sign in successful",
                                   Some(SignInData(outcome.value.user.value, outcome.value.session.value)))
    ensures r.calls != [] && outcome.Ok? && outcome.value.user.None? ==>
              r.result == Response(500, NoAttribute("NoneType", "id"))
    ensures r.calls != [] && outcome.Ok? && outcome.value.user.Some? && outcome.value.session.None? ==>
              r.result == Response(500, NoAttribute("NoneType", "access_token"))
    ensures r.result.count.None?
    ensures r.result.status in {200, 400, 500}
  {
    if Blank(email) then Reject("Email is required")
    else if Blank(password) then Reject("Password is required")
    else
      var calls := [SignInWithPassword(email.value, password.value)];
      match outcome
      case Fault(m) => Traced(Response(500, m), calls)
      case Ok(resp) =>
        if resp.user.None? then Traced(Response(500, NoAttribute("NoneType", "id")), calls)
        else if resp.session.None? then Traced(Response(500, NoAttribute("NoneType", "access_token")), calls)
        else Traced(Response(200, "Sign in successful", Some(SignInData(resp.user.value, resp.session.value))), calls)
  }

  /** `sign_up`: same guards as `sign_in`; success gives 201 with the remote
      response as it came back, a fault gives 500. */
  function SignUp(email: Option<string>, password: Option<string>, outcome: Outcome<Payload>): (r: Traced<Envelope, AuthCall>)
    ensures r.calls == [] <==> Blank(email) || Blank(password)
    ensures r.calls != [] ==> r.calls == [SignUpWithPassword(email.value, password.value)]
    ensures Blank(email) ==> r.result == Response(400, "Email is required")
    ensures !Blank(email) && Blank(password) ==> r.result == Response(400, "Password is required")
    ensures r.result.status == 201 <==> r.calls != [] && outcome.Ok?
    ensures r.result.status == 201 ==> r.result.data == Some(Opaque(outcome.value))
    ensures r.result.status == 500 <==> r.calls != [] && outcome.Fault?
    ensures r.result.status == 500 ==> r.result.message == outcome.message
    ensures r.calls != [] && outcome.Ok? ==> r.result == Response(201, "Sign up successful", Some(Opaque(outcome.value)))
    ensures r.calls != [] && outcome.Fault? ==> r.result == Response(500, outcome.message)
    ensures r.result.status in {201, 400, 500}
  {
    if Blank(email) then Reject("Email is required")
    else if Blank(password) then Reject("Password is required")
    else
      var calls := [SignUpWithPassword(email.value, password.value)];
      match outcome
      case Ok(p) => Traced(Response(201, "Sign up successful", Some(Opaque(p))), calls)
      case Fault(m) => Traced(Response(500, m), calls)
  }

  /** `sign_out`: no validation and no envelope; the remote call's exception,
      if any, escapes to the caller. */
  function SignOut(outcome: Outcome<Payload>): (r: Traced<Reply, AuthCall>)
    ensures r.calls == [SignOutSession]
    ensures r.result.ReturnedNone? <==> outcome.Ok?
    ensures outcome.Fault? ==> r.result == Raised(outcome.message)
  {
    match outcome
    case Ok(_) => Traced(ReturnedNone, [SignOutSession])
    case Fault(m) => Traced(Raised(m), [SignOutSession])
  }

  /** `get_user`: a blank token gives 400 "Access token is required"; a remote
      fault gives 400 too (not 500), carrying the fault text. */
  function GetUser(accessToken: Option<string>, outcome: Outcome<Payload>): (r: Traced<Envelope, AuthCall>)
    ensures r.calls == [] <==> Blank(accessToken)
    ensures r.calls != [] ==> r.calls == [GetUserByToken(accessToken.value)]
    ensures Blank(accessToken) ==> r.result == Response(400, "Access token is required")
    ensures r.result.status == 200 <==> !Blank(accessToken) && outcome.Ok?
    ensures r.result.status == 200 ==> r.result.data == Some(Opaque(outcome.value))
    ensures r.result.status == 400 <==> Blank(accessToken) || outcome.Fault?
    ensures !Blank(accessToken) && outcome.Fault? ==> r.result.message == outcome.message
    ensures !Blank(accessToken) && outcome.Ok? ==>
              r.result == Response(200, "User retrieved successfully", Some(Opaque(outcome.value)))
    ensures !Blank(accessToken) && outcome.Fault? ==> r.result == Response(400, outcome.message)
  {
    if Blank(accessToken) then Reject("Access token is required")
    else
      var calls := [GetUserByToken(accessToken.value)];
      match outcome
      case Ok(user) => Traced(Response(200, "User retrieved successfully", Some(Opaque(user))), calls)
      case Fault(m) => Traced(Response(400, m), calls)
  }

  /** `resend_mail`: a blank email gives 400; otherwise the remote call is not
      guarded by a `try`, so it either returns (and the method reports 200) or
      its exception escapes. */
  function ResendMail(email: Option<string>, kind: ResendKind, outcome: Outcome<Payload>): (r: Traced<Reply, AuthCall>)
    ensures r.calls == [] <==> Blank(email)
    ensures r.calls != [] ==> r.calls == [ResendEmail(email.value, kind)]
    ensures Blank(email) ==> r.result == Returned(Response(400, "Email is required"))
    ensures !Blank(email) && outcome.Ok? ==>
              r.result == Returned(Response(200, "Email sent successfully", Some(Opaque(outcome.value))))
    ensures !Blank(email) && outcome.Fault? ==> r.result == Raised(outcome.message)
    ensures r.result.Returned? ==> r.result.envelope.status in {200, 400}
  {
    if Blank(email) then Traced(Returned(Response(400, "Email is required")), [])
    else
      var calls := [ResendEmail(email.value, kind)];
      match outcome
      case Ok(p) => Traced(Returned(Response(200, "Email sent successfully", Some(Opaque(p)))), calls)
      case Fault(m) => Traced(Raised(m), calls)
  }

  /** `refresh_token`: blank gives 400 "Refresh token is required", a remote
      fault 500, success 200 with the new session. */
  function RefreshToken(refreshToken: Option<string>, outcome: Outcome<Payload>): (r: Traced<Envelope, AuthCall>)
    ensures r.calls == [] <==> Blank(refreshToken)
    ensures r.calls != [] ==> r.calls == [RefreshSession(refreshToken.value)]
    ensures Blank(refreshToken) ==> r.result == Response(400, "Refresh token is required")
    ensures r.result.status == 200 <==> !Blank(refreshToken) && outcome.Ok?
    ensures r.result.status == 200 ==> r.result.data == Some(Opaque(outcome.value))
    ensures r.result.status == 500 <==> !Blank(refreshToken) && outcome.Fault?
    ensures r.result.status == 500 ==> r.result.message == outcome.message
    ensures !Blank(refreshToken) && outcome.Ok? ==>
              r.result == Response(200, "Session refreshed successfully", Some(Opaque(outcome.value)))
    ensures !Blank(refreshToken) && outcome.Fault? ==> r.result == Response(500, outcome.message)
  {
    if Blank(refreshToken) then Reject("Refresh token is required")
    else
      var calls := [RefreshSession(refreshToken.value)];
      match outcome
      case Fault(m) => Traced(Response(500, m), calls)
      case Ok(session) => Traced(Response(200, "Session refreshed successfully", Some(Opaque(session))), calls)
  }

  /** `is_logged_in` as written: a blank token is `False`; otherwise it asks
      `get_user` and answers `user is not None`, and `get_user` always returns
      an envelope, so the answer does not depend on the lookup at all. */
  function IsLoggedIn(accessToken: Option<string>, outcome: Outcome<Payload>): (r: Traced<bool, AuthCall>)
    ensures r.result <==> !Blank(accessToken)
    ensures r.calls == [] <==> Blank(accessToken)
    ensures r.calls == GetUser(accessToken, outcome).calls
  {
    if Blank(accessToken) then Traced(false, [])
    else
      var user: Option<Envelope> := Some(GetUser(accessToken, outcome).result);
      Traced(user.Some?, GetUser(accessToken, outcome).calls)
  }

  /** `is_logged_in` as its name promises: logged in exactly when the user
      lookup succeeds. */
  function IsLoggedInIntended(accessToken: Option<string>, outcome: Outcome<Payload>): (r: Traced<bool, AuthCall>)
    ensures r.result <==> !Blank(accessToken) && outcome.Ok?
    ensures r.result <==> GetUser(accessToken, outcome).result.status == 200
    ensures r.calls == [] <==> Blank(accessToken)
    ensures r.calls == GetUser(accessToken, outcome).calls
  {
    if Blank(accessToken) then Traced(false, [])
    else
      var user := GetUser(accessToken, outcome);
      Traced(user.result.status == 200, user.calls)
  }

  /** Every non-blank token the lookup rejects still counts as logged in
      under `is_logged_in` as written, while the lookup itself reports 400. */
  lemma RejectedTokenStillLoggedIn(token: string, reason: string)
    requires !Blank(Some(token))
    ensures GetUser(Some(token), Fault(reason)).result.status == 400
    ensures IsLoggedIn(Some(token), Fault(reason)).result
    ensures !IsLoggedInIntended(Some(token), Fault(reason)).result
  {
  }

  /** The token "expired", with the lookup failing as "invalid JWT", is one
      such token: it is not blank. */
  lemma ExpiredTokenStillLoggedIn()
    ensures IsLoggedIn(Some("expired"), Fault("invalid JWT")).result
    ensures !IsLoggedInIntended(Some("expired"), Fault("invalid JWT")).result
  {
  }
}

=== FILE: database.dfy ===
/** The table facade (`SupabaseDatabase`): guard chains over the table name
    and the argument collections, the translation of a `where` mapping into
    equality filters, and the status each outcome maps to. A query is built
    locally and sent with one `execute()`, so each successful validation
    leads to exactly one remote call, recorded as the query it sends.
 */
module Database {
  import opened Wrappers
  import opened Text
  import opened Types

  /** The row-counting mode passed to a select. `NoCount` stands for the
      `CountMethod["none"]` lookup `select_by_id` makes; whether the client
      library defines that member is outside this model. */
  datatype CountMethod = Exact | Planned | Estimated | NoCount

  /** One key/value pair of a Python dict argument, in insertion order. */
  datatype Entry = Entry(column: string, value: Value)

  /** An exact-match filter `column = value`. */
  datatype Filter = Eq(column: string, value: Value)

  /** What a query does. The select's column list is kept as given: the
      string it is joined into is built by a helper this model does not see. */
  datatype Action =
    | Select(columns: seq<string>, count: CountMethod)
    | UpdateRows(changes: seq<Entry>)
    | InsertRow(values: seq<Entry>)
    | DeleteRows

  /** The query sent by one `execute()`. */
  datatype Query = Query(table: string, action: Action, filters: seq<Filter>)

  /** The result of a select: the rows and, when counting was asked for, the
      row count. */
  datatype QueryResponse = QueryResponse(rows: seq<Row>, count: Option<int>)

  /** Python's `not x` for a list or dict argument: `None` or empty. */
  predicate Missing<T>(x: Option<seq<T>>) {
    x.None? || x.value == []
  }

  /** `for k, v in where.items(): query = query.eq(k, v)`: one equality
      filter per entry, in the same order. */
  function FiltersOf(entries: seq<Entry>): (fs: seq<Filter>)
    ensures |fs| == |entries|
    ensures forall i :: 0 <= i < |entries| ==> fs[i] == Eq(entries[i].column, entries[i].value)
  {
    if entries == [] then [] else [Eq(entries[0].column, entries[0].value)] + FiltersOf(entries[1..])
  }

  /** The filters a `where` argument yields; none when it is `None` or empty. */
  function EqualityFilters(where: Option<seq<Entry>>): (fs: seq<Filter>)
    ensures Missing(where) ==> fs == []
    ensures where.Some? ==> |fs| == |where.value|
    ensures where.Some? ==> forall i :: 0 <= i < |where.value| ==>
              fs[i] == Eq(where.value[i].column, where.value[i].value)
  {
    match where
    case None => []
    case Some(entries) => FiltersOf(entries)
  }

  /** A row passes a list of equality filters when it agrees with every one:
      the filters are AND-ed. Agreement is this model's value equality, so a
      filter on `NullVal` admits a row holding `NullVal`; the database's own
      `eq`, which never matches NULL, is idealised here. */
  predicate Satisfies(row: Row, fs: seq<Filter>) {
    forall i :: 0 <= i < |fs| ==> fs[i].column in row && row[fs[i].column] == fs[i].value
  }

  /** A row matches an entry when it holds that entry's value in that column. */
  predicate MatchesEntry(row: Row, e: Entry) {
    e.column in row && row[e.column] == e.value
  }

  /** The filters built from `where` accept exactly the rows that agree with
      every entry of `where`. */
  lemma SatisfiesIffMatchesAll(row: Row, entries: seq<Entry>)
    ensures Satisfies(row, FiltersOf(entries)) <==> forall e :: e in entries ==> MatchesEntry(row, e)
  {
    var fs := FiltersOf(entries);
    if Satisfies(row, fs) {
      forall e | e in entries
        ensures MatchesEntry(row, e)
      {
        var i :| 0 <= i < |entries| && entries[i] == e;
        assert fs[i] == Eq(e.column, e.value);
      }
    }
    if forall e :: e in entries ==> MatchesEntry(row, e) {
      forall i | 0 <= i < |fs|
        ensures fs[i].column in row && row[fs[i].column] == fs[i].value
      {
        assert MatchesEntry(row, entries[i]);
      }
    }
  }

  /** The order of the `where` entries does not matter: two `where` arguments
      with the same entries select the same rows. */
  lemma FilterOrderIrrelevant(a: seq<Entry>, b: seq<Entry>, row: Row)
    requires forall e :: e in a <==> e in b
    ensures Satisfies(row, FiltersOf(a)) <==> Satisfies(row, FiltersOf(b))
  {
    SatisfiesIffMatchesAll(row, a);
    SatisfiesIffMatchesAll(row, b);
  }

  /** `select_all`: table name, then column list, must be present; then one
      select with an equality filter per `where` entry. Success gives 200 with
      the response's rows and count; any fault gives 500. */
  function SelectAll(table: Option<string>, columns: Option<seq<string>>, count: CountMethod,
                     where: Option<seq<Entry>>, outcome: Outcome<QueryResponse>): (r: Traced<Envelope, Query>)
    ensures r.calls == [] <==> Blank(table) || Missing(columns)
    ensures Blank(table) ==> r.result == Response(400, "Table name is required")
    ensures !Blank(table) && Missing(columns) ==> r.result == Response(400, "Table columns are required")
    ensures r.calls != [] ==>
              r.calls == [Query(table.value, Select(columns.value, count), EqualityFilters(where))]
    ensures r.result.status == 200 <==> r.calls != [] && outcome.Ok?
    ensures r.result.status == 200 ==>
              r.result.data == Some(Rows(outcome.value.rows)) && r.result.count == outcome.value.count
    ensures r.result.status == 500 <==> r.calls != [] && outcome.Fault?
    ensures r.result.status == 500 ==> r.result.message == outcome.message
    ensures r.calls != [] && outcome.Ok? ==>
              r.result == Response(200, "Select successful", Some(Rows(outcome.value.rows)), outcome.value.count)
    ensures r.calls != [] && outcome.Fault? ==> r.result == Response(500, outcome.message)
    ensures r.result.status in {200, 400, 500}
  {
    if Blank(table) then Reject("Table name is required")
    else if Missing(columns) then Reject("Table columns are required")
    else
      var calls := [Query(table.value, Select(columns.value, count), EqualityFilters(where))];
      match outcome
      case Ok(resp) => Traced(Response(200, "Select successful", Some(Rows(resp.rows)), resp.count), calls)
      case Fault(m) => Traced(Response(500, m), calls)
  }

  /** The default column list of `select_all`: every column. */
  const AllColumns: Option<seq<string>> := Some(["*"])

  /** `select_by_id`: a falsy id (`None`, 0, "", ...) gives 400 "ID is
      required" before anything else is looked at; otherwise it is
      `select_all` filtered on `id` with counting switched off. */
  function SelectById(table: Option<string>, columns: Option<seq<string>>, id: Option<Value>,
                      outcome: Outcome<QueryResponse>): (r: Traced<Envelope, Query>)
    ensures id.None? || !Truthy(id.value) ==> r.result == Response(400, "ID is required") && r.calls == []
    ensures id.Some? && Truthy(id.value) ==>
              r == SelectAll(table, columns, NoCount, Some([Entry("id", id.value)]), outcome)
  {
    if id.None? || !Truthy(id.value) then Reject("ID is required")
    else SelectAll(table, columns, NoCount, Some([Entry("id", id.value)]), outcome)
  }

  /** A select by a present id filters on exactly that id and nothing else. */
  lemma SelectByIdFiltersOnId(table: string, columns: seq<string>, id: Value, outcome: Outcome<QueryResponse>, row: Row)
    requires !Blank(Some(table)) && columns != [] && Truthy(id)
    ensures SelectById(Some(table), Some(columns), Some(id), outcome).calls ==
              [Query(table, Select(columns, NoCount), [Eq("id", id)])]
    ensures Satisfies(row, [Eq("id", id)]) <==> "id" in row && row["id"] == id
  {
    var fs := EqualityFilters(Some([Entry("id", id)]));
    assert fs == [Eq("id", id)];
  }

  /** `select_all(table_name=t)` with every other argument defaulted: all
      columns, exact counting, no filter; on success the envelope carries the
      rows and the count the service reported. */
  lemma DefaultSelect(table: string, outcome: Outcome<QueryResponse>)
    requires !Blank(Some(table))
    ensures SelectAll(Some(table), AllColumns, Exact, None, outcome).calls ==
              [Query(table, Select(["*"], Exact), [])]
    ensures outcome.Ok? ==>
              SelectAll(Some(table), AllColumns, Exact, None, outcome).result ==
              Response(200, "Select successful", Some(Rows(outcome.value.rows)), outcome.value.count)
  {
  }

  /** `update`: table name, then `set` (here `changes`), then `where` must be present; the
      update is filtered on every `where` entry. 200 on success, 500 on fault. */
  function Update(table: Option<string>, changes: Option<seq<Entry>>, where: Option<seq<Entry>>,
                  outcome: Outcome<Payload>): (r: Traced<Envelope, Query>)
    ensures r.calls == [] <==> Blank(table) || Missing(changes) || Missing(where)
    ensures Blank(table) ==> r.result == Response(400, "Table name is required")
    ensures !Blank(table) && Missing(changes) ==> r.result == Response(400, "Set is required")
    ensures !Blank(table) && !Missing(changes) && Missing(where) ==> r.result == Response(400, "Where is required")
    ensures r.calls != [] ==>
              r.calls == [Query(table.value, UpdateRows(changes.value), FiltersOf(where.value))]
    ensures r.calls != [] && outcome.Ok? ==> r.result == Response(200, "Update successful", Some(Opaque(outcome.value)))
    ensures r.calls != [] && outcome.Fault? ==> r.result == Response(500, outcome.message)
    ensures r.result.status == 200 <==> r.calls != [] && outcome.Ok?
    ensures r.result.status == 200 ==> r.result.data == Some(Opaque(outcome.value))
    ensures r.result.status == 500 <==> r.calls != [] && outcome.Fault?
    ensures r.result.status == 500 ==> r.result.message == outcome.message
  {
    if Blank(table) then Reject("Table name is required")
    else if Missing(changes) then Reject("Set is required")
    else if Missing(where) then Reject("Where is required")
    else
      var calls := [Query(table.value, UpdateRows(changes.value), EqualityFilters(where))];
      match outcome
      case Ok(resp) => Traced(Response(200, "Update successful", Some(Opaque(resp))), calls)
      case Fault(m) => Traced(Response(500, m), calls)
  }

  /** `insert`: table name, then `values`, must be present; no filters.
      201 on success, 500 on fault. */
  function Insert(table: Option<string>, values: Option<seq<Entry>>, outcome: Outcome<Payload>): (r: Traced<Envelope, Query>)
    ensures r.calls == [] <==> Blank(table) || Missing(values)
    ensures Blank(table) ==> r.result == Response(400, "Table name is required")
    ensures !Blank(table) && Missing(values) ==> r.result == Response(400, "Values are required")
    ensures r.calls != [] ==> r.calls == [Query(table.value, InsertRow(values.value), [])]
    ensures r.calls != [] && outcome.Ok? ==> r.result == Response(201, "Insert successful", Some(Opaque(outcome.value)))
    ensures r.calls != [] && outcome.Fault? ==> r.result == Response(500, outcome.message)
    ensures r.result.status == 201 <==> r.calls != [] && outcome.Ok?
    ensures r.result.status == 201 ==> r.result.data == Some(Opaque(outcome.value))
    ensures r.result.status == 500 <==> r.calls != [] && outcome.Fault?
    ensures r.result.status == 500 ==> r.result.message == outcome.message
  {
    if Blank(table) then Reject("Table name is required")
    else if Missing(values) then Reject("Values are required")
    else
      var calls := [Query(table.value, InsertRow(values.value), [])];
      match outcome
      case Ok(resp) => Traced(Response(201, "Insert successful", Some(Opaque(resp))), calls)
      case Fault(m) => Traced(Response(500, m), calls)
  }

  /** `delete`: table name, then `where`, must be present; the delete is
      filtered on every `where` entry. 200 on success, 500 on fault. */
  function Delete(table: Option<string>, where: Option<seq<Entry>>, outcome: Outcome<Payload>): (r: Traced<Envelope, Query>)
    ensures r.calls == [] <==> Blank(table) || Missing(where)
    ensures Blank(table) ==> r.result == Response(400, "Table name is required")
    ensures !Blank(table) && Missing(where) ==> r.result == Response(400, "Where is required")
    ensures r.calls != [] ==> r.calls == [Query(table.value, DeleteRows, FiltersOf(where.value))]
    ensures r.calls != [] && outcome.Ok? ==> r.result == Response(200, "Delete successful", Some(Opaque(outcome.value)))
    ensures r.calls != [] && outcome.Fault? ==> r.result == Response(500, outcome.message)
    ensures r.result.status == 200 <==> r.calls != [] && outcome.Ok?
    ensures r.result.status == 200 ==> r.result.data == Some(Opaque(outcome.value))
    ensures r.result.status == 500 <==> r.calls != [] && outcome.Fault?
    ensures r.result.status == 500 ==> r.result.message == outcome.message
  {
    if Blank(table) then Reject("Table name is required")
    else if Missing(where) then Reject("Where is required")
    else
      var calls := [Query(table.value, DeleteRows, EqualityFilters(where))];
      match outcome
      case Ok(resp) => Traced(Response(200, "Delete successful", Some(Opaque(resp))), calls)
      case Fault(m) => Traced(Response(500, m), calls)
  }

  /** An empty `set` is refused whatever `where` says, and nothing is sent. */
  lemma EmptySetRejected(table: Option<string>, where: Option<seq<Entry>>, outcome: Outcome<Payload>)
    requires !Blank(table)
    ensures Update(table, Some([]), where, outcome).result == Response(400, "Set is required")
    ensures Update(table, Some([]), where, outcome).calls == []
  {
  }
}

=== FILE: storage.dfy ===
/** The storage facade (`SupabaseStorage`): guard chains over bucket ids, names
    and paths, the bucket-existence checks that gate every remote create,
    delete and object operation, the composition of object paths, and the
    status each outcome maps to. Every remote step's outcome is a parameter;
    the `calls` of each result list the remote calls the method issued.

    The object operations are modelled twice. The functions named after the
    Python methods follow the code as written: `upload_file` stops at a
    comparison of a string with an integer, and the other four invoke the
    object operation on the envelope returned by `get_bucket` instead of on
    the bucket it carries. The `...Intended` functions model what the code
    evidently means to do, with the same guards, gating and paths.
 */
module Storage {
  import opened Wrappers
  import opened Text
  import opened Types

  /** The calls this facade makes into the remote storage client. */
  datatype StorageCall =
    | ListAllBuckets
    | GetBucketById(id: string)
    | CreateBucketCall(id: string, name: string, public: bool)
    | DeleteBucketById(id: string)
    | ListObjects(bucketId: string)
    | UploadObject(bucketId: string, path: string, localFile: string)
    | DownloadObject(bucketId: string, path: string)
    | UpdateObject(bucketId: string, path: string, localFile: string)
    | CopyObject(bucketId: string, fromPath: string, toPath: string)
    | MoveObject(bucketId: string, fromPath: string, toPath: string)

  /** What the local filesystem holds at `local_file_path`: nothing, a regular
      file, or something else (a directory, say). */
  datatype LocalEntry = NoSuchPath | RegularFile | NotAFile

  // ---------------------------------------------------------------------------
  // Object paths
  // ---------------------------------------------------------------------------

  /** `if bucket_path and not bucket_path.endswith("/"): bucket_path += "/"`. */
  function NormalizeDir(dir: string): (r: string)
    ensures dir == [] ==> r == []
    ensures dir != [] ==> EndsWith(r, "/")
    ensures r == dir || r == dir + "/"
    ensures EndsWith(dir, "/") ==> r == dir
  {
    if dir != [] && !EndsWith(dir, "/") then dir + "/" else dir
  }

  /** Normalising a directory twice changes nothing more than normalising it
      once. */
  lemma NormalizeDirIdempotent(dir: string)
    ensures NormalizeDir(NormalizeDir(dir)) == NormalizeDir(dir)
  {
    if dir != [] && !EndsWith(dir, "/") {
      var d := dir + "/";
      assert d[|d| - 1..] == "/";
    }
  }

  /** The remote object path `download_file` and `update_file` build from an
      optional directory and a file name. */
  function ObjectPath(bucketPath: Option<string>, fileName: string): (path: string)
    ensures bucketPath.None? || bucketPath.value == [] ==> path == fileName
    ensures bucketPath.Some? ==> bucketPath.value <= path
    ensures EndsWith(path, fileName)
    ensures bucketPath.Some? && bucketPath.value != [] ==>
              |path| - |fileName| in {|bucketPath.value|, |bucketPath.value| + 1}
              && path[|path| - |fileName| - 1] == '/'
    ensures bucketPath.Some? ==> path[..|path| - |fileName|] == NormalizeDir(bucketPath.value)
  {
    var dir := match bucketPath case None => [] case Some(p) => NormalizeDir(p);
    var path := if dir != [] then dir + fileName else fileName;
    assert path[|path| - |fileName|..] == fileName;
    assert dir != [] ==> path[..|dir|] == dir && path[|dir| - 1] == dir[|dir| - 1];
    assert bucketPath.Some? ==> path[..|path| - |fileName|] == dir;
    path
  }

  /** Handing in a directory that already ends in "/" yields the same object
      path as handing in the bare directory. */
  lemma ObjectPathNormalizedInput(dir: string, fileName: string)
    ensures ObjectPath(Some(NormalizeDir(dir)), fileName) == ObjectPath(Some(dir), fileName)
  {
    NormalizeDirIdempotent(dir);
  }

  /** The directory part of an object path (everything before the file name)
      is exactly the normalised directory. */
  lemma ObjectPathSplits(dir: string, fileName: string)
    ensures ObjectPath(Some(dir), fileName)[..|ObjectPath(Some(dir), fileName)| - |fileName|] == NormalizeDir(dir)
  {
    var path := ObjectPath(Some(dir), fileName);
    if dir != [] {
      assert path == NormalizeDir(dir) + fileName;
    }
  }

  // ---------------------------------------------------------------------------
  // Buckets
  // ---------------------------------------------------------------------------

  /** `list_buckets`: 200 with the listing, or 500 with the fault text. */
  function ListBuckets(outcome: Outcome<seq<Bucket>>): (r: Traced<Envelope, StorageCall>)
    ensures r.calls == [ListAllBuckets]
    ensures r.result.status == 200 <==> outcome.Ok?
    ensures outcome.Ok? ==> r.result.data == Some(Buckets(outcome.value))
    ensures outcome.Ok? ==> r.result == Response(200, "Buckets retrieved successfully", Some(Buckets(outcome.value)))
    ensures outcome.Fault? ==> r.result == Response(500, outcome.message)
  {
    match outcome
    case Ok(buckets) => Traced(Response(200, "Buckets retrieved successfully", Some(Buckets(buckets))), [ListAllBuckets])
    case Fault(m) => Traced(Response(500, m), [ListAllBuckets])
  }

  /** The ids of a bucket listing. */
  function BucketIds(buckets: seq<Bucket>): set<string> {
    set b | b in buckets :: b.id
  }

  /** When `create_bucket` goes as far as the remote create: both arguments
      non-blank, the listing succeeded, and the id is not among the listed
      ones. */
  predicate CreatePasses(id: Option<string>, name: Option<string>, listing: Outcome<seq<Bucket>>) {
    !Blank(id) && !Blank(name) && listing.Ok? && id.value !in BucketIds(listing.value)
  }

  /** `create_bucket`: id, then name, must be non-blank; then the buckets are
      listed, a failed listing gives 400 "Buckets not found" and a listed id
      400 "Bucket already exists". Only past both checks is the remote create
      issued: 201 on success, and on a fault the bare fault text (a string,
      not an envelope). */
  function CreateBucket(id: Option<string>, name: Option<string>, public: bool,
                        listing: Outcome<seq<Bucket>>, creation: Outcome<Payload>): (r: Traced<Reply, StorageCall>)
    ensures r.calls == [] <==> Blank(id) || Blank(name)
    ensures Blank(id) ==> r.result == Returned(Response(400, "Bucket ID is required"))
    ensures !Blank(id) && Blank(name) ==> r.result == Returned(Response(400, "Bucket name is required"))
    ensures r.calls != [] ==> r.calls[0] == ListAllBuckets
    ensures r.calls != [] && ListBuckets(listing).result.status != 200 ==>
              r.result == Returned(Response(400, "Buckets not found"))
    ensures r.calls != [] && listing.Ok? && id.value in BucketIds(listing.value) ==>
              r.result == Returned(Response(400, "Bucket already exists"))
    ensures |r.calls| == 2 <==> CreatePasses(id, name, listing)
    ensures r.calls != [] && !CreatePasses(id, name, listing) ==> r.calls == [ListAllBuckets]
    ensures CreatePasses(id, name, listing) ==>
              r.calls == [ListAllBuckets, CreateBucketCall(id.value, name.value, public)]
    ensures (r.result.Returned? && r.result.envelope.status == 201) <==> CreatePasses(id, name, listing) && creation.Ok?
    ensures CreatePasses(id, name, listing) && creation.Ok? ==>
              r.result.envelope.data == Some(Opaque(creation.value))
    ensures CreatePasses(id, name, listing) && creation.Ok? ==>
              r.result == Returned(Response(201, "Bucket created successfully", Some(Opaque(creation.value))))
    ensures CreatePasses(id, name, listing) && creation.Fault? ==> r.result == ReturnedText(creation.message)
  {
    if Blank(id) then Traced(Returned(Response(400, "Bucket ID is required")), [])
    else if Blank(name) then Traced(Returned(Response(400, "Bucket name is required")), [])
    else
      var buckets := ListBuckets(listing);
      if buckets.result.status != 200 then Traced(Returned(Response(400, "Buckets not found")), buckets.calls)
      else if id.value in BucketIds(buckets.result.data.value.buckets) then
        Traced(Returned(Response(400, "Bucket already exists")), buckets.calls)
      else
        var calls := buckets.calls + [CreateBucketCall(id.value, name.value, public)];
        match creation
        case Ok(created) => Traced(Returned(Response(201, "Bucket created successfully", Some(Opaque(created)))), calls)
        case Fault(m) => Traced(ReturnedText(m), calls)
  }

  /** Creating the same id twice: once the listing shows the first creation,
      the second call is refused with 400 "Bucket already exists" and issues
      no remote create. */
  lemma CreateTwiceRejected(id: string, name: string, public: bool, before: seq<Bucket>, creation: Outcome<Payload>)
    requires !Blank(Some(id)) && !Blank(Some(name))
    ensures CreateBucket(Some(id), Some(name), public, Ok(before + [Bucket(id, name, public)]), creation) ==
              Traced(Returned(Response(400, "Bucket already exists")), [ListAllBuckets])
  {
    assert Bucket(id, name, public) in before + [Bucket(id, name, public)];
  }

  /** `get_bucket`: a blank id gives `None` (not an envelope) and no remote
      call; otherwise 200 with the bucket, or 400 with the fault text. */
  function GetBucket(id: Option<string>, outcome: Outcome<Payload>): (r: Traced<Option<Envelope>, StorageCall>)
    ensures r.result.None? <==> Blank(id)
    ensures r.calls == [] <==> Blank(id)
    ensures !Blank(id) ==> r.calls == [GetBucketById(id.value)]
    ensures r.result.Some? ==> (r.result.value.status == 200 <==> outcome.Ok?)
    ensures r.result.Some? && outcome.Ok? ==> r.result.value.data == Some(Opaque(outcome.value))
    ensures r.result.Some? && outcome.Fault? ==> r.result.value == Response(400, outcome.message)
    ensures r.result.Some? && outcome.Ok? ==>
              r.result.value == Response(200, "Bucket retrieved successfully", Some(Opaque(outcome.value)))
  {
    if Blank(id) then Traced(None, [])
    else
      var calls := [GetBucketById(id.value)];
      match outcome
      case Ok(bucket) => Traced(Some(Response(200, "Bucket retrieved successfully", Some(Opaque(bucket)))), calls)
      case Fault(m) => Traced(Some(Response(400, m)), calls)
  }

  /** `delete_bucket`: a blank id gives 400; a bucket the lookup does not find
      gives 400 "Bucket not found" and no delete. Otherwise the remote delete
      runs outside any `try`: it either returns (200 "Bucket removed!") or its
      exception escapes. */
  function DeleteBucket(id: Option<string>, lookup: Outcome<Payload>, removal: Outcome<Payload>): (r: Traced<Reply, StorageCall>)
    ensures r.calls == [] <==> Blank(id)
    ensures Blank(id) ==> r.result == Returned(Response(400, "Bucket ID is required"))
    ensures !Blank(id) && lookup.Fault? ==>
              r == Traced(Returned(Response(400, "Bucket not found")), [GetBucketById(id.value)])
    ensures |r.calls| == 2 <==> !Blank(id) && lookup.Ok?
    ensures |r.calls| == 2 ==> r.calls == [GetBucketById(id.value), DeleteBucketById(id.value)]
    ensures (r.result.Returned? && r.result.envelope.status == 200) <==> |r.calls| == 2 && removal.Ok?
    ensures |r.calls| == 2 && removal.Ok? ==>
              r.result == Returned(Response(200, "Bucket removed!", Some(Opaque(removal.value))))
    ensures |r.calls| == 2 && removal.Fault? ==> r.result == Raised(removal.message)
  {
    if Blank(id) then Traced(Returned(Response(400, "Bucket ID is required")), [])
    else
      var bucket := GetBucket(id, lookup);
      if bucket.result.value.status != 200 then Traced(Returned(Response(400, "Bucket not found")), bucket.calls)
      else
        var calls := bucket.calls + [DeleteBucketById(id.value)];
        match removal
        case Ok(removed) => Traced(Returned(Response(200, "Bucket removed!", Some(Opaque(removed)))), calls)
        case Fault(m) => Traced(Raised(m), calls)
  }

  /** `list_files`: a blank id gives 400 and an unknown bucket 400 "Bucket not
      found"; the listing itself runs on the bucket outside any `try`, so its
      fault escapes. */
  function ListFiles(id: Option<string>, lookup: Outcome<Payload>, listing: Outcome<Payload>): (r: Traced<Reply, StorageCall>)
    ensures r.calls == [] <==> Blank(id)
    ensures Blank(id) ==> r.result == Returned(Response(400, "Bucket ID is required"))
    ensures !Blank(id) && lookup.Fault? ==>
              r == Traced(Returned(Response(400, "Bucket not found")), [GetBucketById(id.value)])
    ensures |r.calls| == 2 <==> !Blank(id) && lookup.Ok?
    ensures |r.calls| == 2 ==> r.calls == [GetBucketById(id.value), ListObjects(id.value)]
    ensures |r.calls| == 2 && listing.Ok? ==>
              r.result == Returned(Response(200, "Files retrieved successfully", Some(Opaque(listing.value))))
    ensures |r.calls| == 2 && listing.Fault? ==> r.result == Raised(listing.message)
  {
    if Blank(id) then Traced(Returned(Response(400, "Bucket ID is required")), [])
    else
      var bucket := GetBucket(id, lookup);
      if bucket.result.value.status != 200 then Traced(Returned(Response(400, "Bucket not found")), bucket.calls)
      else
        var calls := bucket.calls + [ListObjects(id.value)];
        match listing
        case Ok(files) => Traced(Returned(Response(200, "Files retrieved successfully", Some(Opaque(files)))), calls)
        case Fault(m) => Traced(Raised(m), calls)
  }

  // ---------------------------------------------------------------------------
  // Objects, as written
  // ---------------------------------------------------------------------------

  /** The `TypeError` Python raises for `bucket_path > 0`. */
  function CompareWithIntError(bucketPath: Option<string>): string {
    var operand := if bucketPath.None? then "NoneType" else "str";
    "'>' not supported between instances of '" + operand + "' and 'int'"
  }

  /** `upload_file` as written: bucket id, local path and file name must be
      non-blank, and the local path must not name something other than a
      regular file. Past those checks, `bucket_path > 0` compares a string (or
      `None`) with an integer, which raises; so no remote call is ever made. */
  function UploadFile(id: Option<string>, bucketPath: Option<string>, localFile: Option<string>,
                      fileName: Option<string>, local: LocalEntry): (r: Traced<Reply, StorageCall>)
    ensures r.calls == []
    ensures Blank(id) ==> r.result == Returned(Response(400, "Bucket ID is required"))
    ensures !Blank(id) && Blank(localFile) ==> r.result == Returned(Response(400, "Local file path is required"))
    ensures !Blank(id) && !Blank(localFile) && Blank(fileName) ==>
              r.result == Returned(Response(400, "File name is required"))
    ensures !Blank(id) && !Blank(localFile) && !Blank(fileName) && local == NotAFile ==>
              r.result == Returned(Response(400, "Local file path is not a file"))
    ensures r.result.Raised? <==> !Blank(id) && !Blank(localFile) && !Blank(fileName) && local != NotAFile
    ensures r.result.Raised? ==> r.result.error == CompareWithIntError(bucketPath)
    ensures r.result.Returned? ==> r.result.envelope.status == 400
  {
    if Blank(id) then Traced(Returned(Response(400, "Bucket ID is required")), [])
    else if Blank(localFile) then Traced(Returned(Response(400, "Local file path is required")), [])
    else if Blank(fileName) then Traced(Returned(Response(400, "File name is required")), [])
    else if local == NotAFile then Traced(Returned(Response(400, "Local file path is not a file")), [])
    else Traced(Raised(CompareWithIntError(bucketPath)), [])
  }

  /** The `AttributeError` for calling `op` on a `GenericResponse`. */
  function OnEnvelopeError(op: string): string {
    NoAttribute("GenericResponse", op)
  }

  /** The tail the object operations share as written: look the bucket up
      (`None` when it is not found), then call `op` on the envelope the lookup
      returned; the `AttributeError` is caught and reported as 400. */
  function ObjectOnEnvelope(id: Option<string>, lookup: Outcome<Payload>, op: string): (r: Traced<Option<Envelope>, StorageCall>)
    requires !Blank(id)
    ensures r.calls == [GetBucketById(id.value)]
    ensures r.result.None? <==> lookup.Fault?
    ensures lookup.Ok? ==> r.result == Some(Response(400, OnEnvelopeError(op)))
  {
    var bucket := GetBucket(id, lookup);
    if bucket.result.value.status != 200 then Traced(None, bucket.calls)
    else Traced(Some(Response(400, OnEnvelopeError(op))), bucket.calls)
  }

  /** An unknown bucket reported as 400 "Bucket not found". */
  function NotFoundAs400(t: Traced<Option<Envelope>, StorageCall>): Traced<Envelope, StorageCall> {
    match t.result
    case None => Traced(Response(400, "Bucket not found"), t.calls)
    case Some(e) => Traced(e, t.calls)
  }

  /** An unknown bucket reported as a bare `None`. */
  function NotFoundAsNone(t: Traced<Option<Envelope>, StorageCall>): Traced<Reply, StorageCall> {
    match t.result
    case None => Traced(ReturnedNone, t.calls)
    case Some(e) => Traced(Returned(e), t.calls)
  }

  /** `download_file` as written: bucket id, then file name, must be
      non-blank; the bucket is looked up, 400 "Bucket not found" if the lookup
      fails; then `download` is called on the envelope, whose `AttributeError`
      is caught and reported as 400. No download is ever issued. */
  function DownloadFile(id: Option<string>, bucketPath: Option<string>, fileName: Option<string>,
                        lookup: Outcome<Payload>): (r: Traced<Envelope, StorageCall>)
    ensures r.calls == [] <==> Blank(id) || Blank(fileName)
    ensures Blank(id) ==> r.result == Response(400, "Bucket ID is required")
    ensures !Blank(id) && Blank(fileName) ==> r.result == Response(400, "File name is required")
    ensures r.calls != [] ==> r.calls == [GetBucketById(id.value)]
    ensures r.calls != [] && lookup.Fault? ==> r.result == Response(400, "Bucket not found")
    ensures r.calls != [] && lookup.Ok? ==> r.result == Response(400, OnEnvelopeError("download"))
    ensures r.result.status == 400
  {
    if Blank(id) then Reject("Bucket ID is required")
    else if Blank(fileName) then Reject("File name is required")
    else NotFoundAs400(ObjectOnEnvelope(id, lookup, "download"))
  }

  /** `update_file` as written: the upload guards; an unknown bucket gives a
      bare `None`; otherwise `update` is called on the envelope and its
      `AttributeError` is reported as 400. No update is ever issued. */
  function UpdateFile(id: Option<string>, bucketPath: Option<string>, localFile: Option<string>,
                      fileName: Option<string>, local: LocalEntry, lookup: Outcome<Payload>): (r: Traced<Reply, StorageCall>)
    ensures r.calls == [] <==> Blank(id) || Blank(localFile) || Blank(fileName) || local == NotAFile
    ensures Blank(id) ==> r.result == Returned(Response(400, "Bucket ID is required"))
    ensures !Blank(id) && Blank(localFile) ==> r.result == Returned(Response(400, "Local file path is required"))
    ensures !Blank(id) && !Blank(localFile) && Blank(fileName) ==>
              r.result == Returned(Response(400, "File name is required"))
    ensures !Blank(id) && !Blank(localFile) && !Blank(fileName) && local == NotAFile ==>
              r.result == Returned(Response(400, "Local file path is not a file"))
    ensures r.calls != [] ==> r.calls == [GetBucketById(id.value)]
    ensures r.result.ReturnedNone? <==> r.calls != [] && lookup.Fault?
    ensures r.calls != [] && lookup.Ok? ==> r.result == Returned(Response(400, OnEnvelopeError("update")))
  {
    if Blank(id) then Traced(Returned(Response(400, "Bucket ID is required")), [])
    else if Blank(localFile) then Traced(Returned(Response(400, "Local file path is required")), [])
    else if Blank(fileName) then Traced(Returned(Response(400, "File name is required")), [])
    else if local == NotAFile then Traced(Returned(Response(400, "Local file path is not a file")), [])
    else NotFoundAsNone(ObjectOnEnvelope(id, lookup, "update"))
  }

  /** `copy_file` as written: bucket id, then `from_path`, then `to_path`
      must be non-blank; an unknown bucket gives 400 "Bucket not found";
      otherwise `copy` on the envelope fails and is reported as 400. */
  function CopyFile(id: Option<string>, fromPath: Option<string>, toPath: Option<string>,
                    lookup: Outcome<Payload>): (r: Traced<Envelope, StorageCall>)
    ensures r.calls == [] <==> Blank(id) || Blank(fromPath) || Blank(toPath)
    ensures Blank(id) ==> r.result == Response(400, "Bucket ID is required")
    ensures !Blank(id) && Blank(fromPath) ==> r.result == Response(400, "From path is required")
    ensures !Blank(id) && !Blank(fromPath) && Blank(toPath) ==> r.result == Response(400, "To path is required")
    ensures r.calls != [] ==> r.calls == [GetBucketById(id.value)]
    ensures r.calls != [] && lookup.Fault? ==> r.result == Response(400, "Bucket not found")
    ensures r.calls != [] && lookup.Ok? ==> r.result == Response(400, OnEnvelopeError("copy"))
    ensures r.result.status == 400
  {
    if Blank(id) then Reject("Bucket ID is required")
    else if Blank(fromPath) then Reject("From path is required")
    else if Blank(toPath) then Reject("To path is required")
    else NotFoundAs400(ObjectOnEnvelope(id, lookup, "copy"))
  }

  /** `move_file` as written: the guards of `copy_file`; `move` on the
      envelope fails and is reported as 400. */
  function MoveFile(id: Option<string>, fromPath: Option<string>, toPath: Option<string>,
                    lookup: Outcome<Payload>): (r: Traced<Envelope, StorageCall>)
    ensures r.calls == [] <==> Blank(id) || Blank(fromPath) || Blank(toPath)
    ensures Blank(id) ==> r.result == Response(400, "Bucket ID is required")
    ensures !Blank(id) && Blank(fromPath) ==> r.result == Response(400, "From path is required")
    ensures !Blank(id) && !Blank(fromPath) && Blank(toPath) ==> r.result == Response(400, "To path is required")
    ensures r.calls != [] ==> r.calls == [GetBucketById(id.value)]
    ensures r.calls != [] && lookup.Fault? ==> r.result == Response(400, "Bucket not found")
    ensures r.calls != [] && lookup.Ok? ==> r.result == Response(400, OnEnvelopeError("move"))
    ensures r.result.status == 400
  {
    if Blank(id) then Reject("Bucket ID is required")
    else if Blank(fromPath) then Reject("From path is required")
    else if Blank(toPath) then Reject("To path is required")
    else NotFoundAs400(ObjectOnEnvelope(id, lookup, "move"))
  }

  /** Every bucket-taking method refuses a blank bucket id with 400 "Bucket ID
      is required" (`get_bucket` with `None`) before any remote call. */
  lemma BlankBucketIdRejected(id: Option<string>, name: Option<string>, public: bool, bucketPath: Option<string>,
                              localFile: Option<string>, fileName: Option<string>, local: LocalEntry,
                              fromPath: Option<string>, toPath: Option<string>,
                              listing: Outcome<seq<Bucket>>, lookup: Outcome<Payload>, transfer: Outcome<Payload>)
    requires Blank(id)
    ensures GetBucket(id, lookup) == Traced(None, [])
    ensures CreateBucket(id, name, public, listing, transfer) == Traced(Returned(Response(400, "Bucket ID is required")), [])
    ensures DeleteBucket(id, lookup, transfer) == Traced(Returned(Response(400, "Bucket ID is required")), [])
    ensures ListFiles(id, lookup, transfer) == Traced(Returned(Response(400, "Bucket ID is required")), [])
    ensures UploadFile(id, bucketPath, localFile, fileName, local) == Traced(Returned(Response(400, "Bucket ID is required")), [])
    ensures DownloadFile(id, bucketPath, fileName, lookup) == Reject("Bucket ID is required")
    ensures UpdateFile(id, bucketPath, localFile, fileName, local, lookup) == Traced(Returned(Response(400, "Bucket ID is required")), [])
    ensures CopyFile(id, fromPath, toPath, lookup) == Reject("Bucket ID is required")
    ensures MoveFile(id, fromPath, toPath, lookup) == Reject("Bucket ID is required")
  {
  }

  // ---------------------------------------------------------------------------
  // Objects, as intended
  // ---------------------------------------------------------------------------

  /** The tail the object operations share as intended: look the bucket up
      (`None` when it is not found), then issue `call` on the bucket it
      carries; `okStatus` with the result on success, 400 with the fault text
      otherwise. */
  function ObjectOnBucket(id: Option<string>, lookup: Outcome<Payload>, call: StorageCall,
                          transfer: Outcome<Payload>, okStatus: int, okMessage: string): (r: Traced<Option<Envelope>, StorageCall>)
    requires !Blank(id)
    ensures r.result.None? <==> lookup.Fault?
    ensures lookup.Fault? ==> r.calls == [GetBucketById(id.value)]
    ensures lookup.Ok? ==> r.calls == [GetBucketById(id.value), call]
    ensures lookup.Ok? && transfer.Ok? ==> r.result == Some(Response(okStatus, okMessage, Some(Opaque(transfer.value))))
    ensures lookup.Ok? && transfer.Fault? ==> r.result == Some(Response(400, transfer.message))
  {
    var bucket := GetBucket(id, lookup);
    if bucket.result.value.status != 200 then Traced(None, bucket.calls)
    else
      match transfer
      case Ok(p) => Traced(Some(Response(okStatus, okMessage, Some(Opaque(p)))), bucket.calls + [call])
      case Fault(m) => Traced(Some(Response(400, m)), bucket.calls + [call])
  }

  /** `upload_file` with the directory normalised as in `download_file` and
      the upload issued on the bucket: past the guards and the bucket check,
      the file goes to `ObjectPath(bucket_path, file_name)`; 201 on success,
      400 with the fault text otherwise. */
  function UploadFileIntended(id: Option<string>, bucketPath: Option<string>, localFile: Option<string>,
                              fileName: Option<string>, local: LocalEntry,
                              lookup: Outcome<Payload>, transfer: Outcome<Payload>): (r: Traced<Envelope, StorageCall>)
    ensures r.calls == [] <==> Blank(id) || Blank(localFile) || Blank(fileName) || local == NotAFile
    ensures Blank(id) ==> r.result == Response(400, "Bucket ID is required")
    ensures !Blank(id) && Blank(localFile) ==> r.result == Response(400, "Local file path is required")
    ensures !Blank(id) && !Blank(localFile) && Blank(fileName) ==> r.result == Response(400, "File name is required")
    ensures !Blank(id) && !Blank(localFile) && !Blank(fileName) && local == NotAFile ==>
              r.result == Response(400, "Local file path is not a file")
    ensures r.calls != [] && lookup.Fault? ==>
              r == Traced(Response(400, "Bucket not found"), [GetBucketById(id.value)])
    ensures r.calls != [] && lookup.Ok? ==>
              r.calls == [GetBucketById(id.value), UploadObject(id.value, ObjectPath(bucketPath, fileName.value), localFile.value)]
    ensures r.result.status == 201 <==> r.calls != [] && lookup.Ok? && transfer.Ok?
    ensures r.result.status == 201 ==> r.result.data == Some(Opaque(transfer.value))
    ensures r.calls != [] && lookup.Ok? && transfer.Ok? ==>
              r.result == Response(201, "File uploaded successfully", Some(Opaque(transfer.value)))
    ensures r.calls != [] && lookup.Ok? && transfer.Fault? ==> r.result == Response(400, transfer.message)
  {
    if Blank(id) then Reject("Bucket ID is required")
    else if Blank(localFile) then Reject("Local file path is required")
    else if Blank(fileName) then Reject("File name is required")
    else if local == NotAFile then Reject("Local file path is not a file")
    else
      var path := ObjectPath(bucketPath, fileName.value);
      NotFoundAs400(ObjectOnBucket(id, lookup, UploadObject(id.value, path, localFile.value), transfer,
                                   201, "File uploaded successfully"))
  }

  /** `download_file` with the download issued on the bucket: 200 with the
      content, or 400 with the fault text. */
  function DownloadFileIntended(id: Option<string>, bucketPath: Option<string>, fileName: Option<string>,
                                lookup: Outcome<Payload>, transfer: Outcome<Payload>): (r: Traced<Envelope, StorageCall>)
    ensures r.calls == [] <==> Blank(id) || Blank(fileName)
    ensures Blank(id) ==> r.result == Response(400, "Bucket ID is required")
    ensures !Blank(id) && Blank(fileName) ==> r.result == Response(400, "File name is required")
    ensures r.calls != [] && lookup.Fault? ==>
              r == Traced(Response(400, "Bucket not found"), [GetBucketById(id.value)])
    ensures r.calls != [] && lookup.Ok? ==>
              r.calls == [GetBucketById(id.value), DownloadObject(id.value, ObjectPath(bucketPath, fileName.value))]
    ensures r.result.status == 200 <==> r.calls != [] && lookup.Ok? && transfer.Ok?
    ensures r.result.status == 200 ==> r.result.data == Some(Opaque(transfer.value))
    ensures r.calls != [] && lookup.Ok? && transfer.Ok? ==>
              r.result == Response(200, "File downloaded successfully", Some(Opaque(transfer.value)))
    ensures r.calls != [] && lookup.Ok? && transfer.Fault? ==> r.result == Response(400, transfer.message)
  {
    if Blank(id) then Reject("Bucket ID is required")
    else if Blank(fileName) then Reject("File name is required")
    else
      var path := ObjectPath(bucketPath, fileName.value);
      NotFoundAs400(ObjectOnBucket(id, lookup, DownloadObject(id.value, path), transfer,
                                   200, "File downloaded successfully"))
  }

  /** `update_file` with the update issued on the bucket: an unknown bucket
      still gives `None`; 200 on success, 400 with the fault text otherwise. */
  function UpdateFileIntended(id: Option<string>, bucketPath: Option<string>, localFile: Option<string>,
                              fileName: Option<string>, local: LocalEntry,
                              lookup: Outcome<Payload>, transfer: Outcome<Payload>): (r: Traced<Reply, StorageCall>)
    ensures r.calls == [] <==> Blank(id) || Blank(localFile) || Blank(fileName) || local == NotAFile
    ensures Blank(id) ==> r.result == Returned(Response(400, "Bucket ID is required"))
    ensures !Blank(id) && Blank(localFile) ==> r.result == Returned(Response(400, "Local file path is required"))
    ensures !Blank(id) && !Blank(localFile) && Blank(fileName) ==>
              r.result == Returned(Response(400, "File name is required"))
    ensures !Blank(id) && !Blank(localFile) && !Blank(fileName) && local == NotAFile ==>
              r.result == Returned(Response(400, "Local file path is not a file"))
    ensures r.result.ReturnedNone? <==> r.calls != [] && lookup.Fault?
    ensures r.calls != [] && lookup.Fault? ==> r == Traced(ReturnedNone, [GetBucketById(id.value)])
    ensures r.calls != [] && lookup.Ok? && transfer.Ok? ==>
              r.result == Returned(Response(200, "File updated successfully", Some(Opaque(transfer.value))))
    ensures r.calls != [] && lookup.Ok? ==>
              r.calls == [GetBucketById(id.value), UpdateObject(id.value, ObjectPath(bucketPath, fileName.value), localFile.value)]
    ensures (r.result.Returned? && r.result.envelope.status == 200) <==> r.calls != [] && lookup.Ok? && transfer.Ok?
    ensures r.calls != [] && lookup.Ok? && transfer.Fault? ==> r.result == Returned(Response(400, transfer.message))
  {
    if Blank(id) then Traced(Returned(Response(400, "Bucket ID is required")), [])
    else if Blank(localFile) then Traced(Returned(Response(400, "Local file path is required")), [])
    else if Blank(fileName) then Traced(Returned(Response(400, "File name is required")), [])
    else if local == NotAFile then Traced(Returned(Response(400, "Local file path is not a file")), [])
    else
      var path := ObjectPath(bucketPath, fileName.value);
      NotFoundAsNone(ObjectOnBucket(id, lookup, UpdateObject(id.value, path, localFile.value), transfer,
                                    200, "File updated successfully"))
  }

  /** `copy_file` with the copy issued on the bucket: 200 on success, 400 with
      the fault text otherwise. */
  function CopyFileIntended(id: Option<string>, fromPath: Option<string>, toPath: Option<string>,
                            lookup: Outcome<Payload>, transfer: Outcome<Payload>): (r: Traced<Envelope, StorageCall>)
    ensures r.calls == [] <==> Blank(id) || Blank(fromPath) || Blank(toPath)
    ensures Blank(id) ==> r.result == Response(400, "Bucket ID is required")
    ensures !Blank(id) && Blank(fromPath) ==> r.result == Response(400, "From path is required")
    ensures !Blank(id) && !Blank(fromPath) && Blank(toPath) ==> r.result == Response(400, "To path is required")
    ensures r.calls != [] && lookup.Fault? ==>
              r == Traced(Response(400, "Bucket not found"), [GetBucketById(id.value)])
    ensures r.calls != [] && lookup.Ok? ==>
              r.calls == [GetBucketById(id.value), CopyObject(id.value, fromPath.value, toPath.value)]
    ensures r.calls != [] && lookup.Ok? && transfer.Ok? ==>
              r.result == Response(200, "File copied successfully", Some(Opaque(transfer.value)))
    ensures r.result.status == 200 <==> r.calls != [] && lookup.Ok? && transfer.Ok?
    ensures r.calls != [] && lookup.Ok? && transfer.Fault? ==> r.result == Response(400, transfer.message)
  {
    if Blank(id) then Reject("Bucket ID is required")
    else if Blank(fromPath) then Reject("From path is required")
    else if Blank(toPath) then Reject("To path is required")
    else
      NotFoundAs400(ObjectOnBucket(id, lookup, CopyObject(id.value, fromPath.value, toPath.value), transfer,
                                   200, "File copied successfully"))
  }

  /** `move_file` with the move issued on the bucket: 200 on success, 400 with
      the fault text otherwise. */
  function MoveFileIntended(id: Option<string>, fromPath: Option<string>, toPath: Option<string>,
                            lookup: Outcome<Payload>, transfer: Outcome<Payload>): (r: Traced<Envelope, StorageCall>)
    ensures r.calls == [] <==> Blank(id) || Blank(fromPath) || Blank(toPath)
    ensures Blank(id) ==> r.result == Response(400, "Bucket ID is required")
    ensures !Blank(id) && Blank(fromPath) ==> r.result == Response(400, "From path is required")
    ensures !Blank(id) && !Blank(fromPath) && Blank(toPath) ==> r.result == Response(400, "To path is required")
    ensures r.calls != [] && lookup.Fault? ==>
              r == Traced(Response(400, "Bucket not found"), [GetBucketById(id.value)])
    ensures r.calls != [] && lookup.Ok? ==>
              r.calls == [GetBucketById(id.value), MoveObject(id.value, fromPath.value, toPath.value)]
    ensures r.calls != [] && lookup.Ok? && transfer.Ok? ==>
              r.result == Response(200, "File moved successfully", Some(Opaque(transfer.value)))
    ensures r.result.status == 200 <==> r.calls != [] && lookup.Ok? && transfer.Ok?
    ensures r.calls != [] && lookup.Ok? && transfer.Fault? ==> r.result == Response(400, transfer.message)
  {
    if Blank(id) then Reject("Bucket ID is required")
    else if Blank(fromPath) then Reject("From path is required")
    else if Blank(toPath) then Reject("To path is required")
    else
      NotFoundAs400(ObjectOnBucket(id, lookup, MoveObject(id.value, fromPath.value, toPath.value), transfer,
                                   200, "File moved successfully"))
  }

  // ---------------------------------------------------------------------------
  // Where the code as written and the intended behaviour part
  // ---------------------------------------------------------------------------

  /** For any upload whose arguments pass the guards, into a bucket that
      exists, with a service that accepts the file: `upload_file` as written
      raises before looking the bucket up, while the intended upload stores
      the file at the composed object path and reports 201. */
  lemma UploadDiverges(id: string, bucketPath: Option<string>, localFile: string, fileName: string,
                       bucket: Payload, stored: Payload)
    requires !Blank(Some(id)) && !Blank(Some(localFile)) && !Blank(Some(fileName))
    ensures UploadFile(Some(id), bucketPath, Some(localFile), Some(fileName), RegularFile).result.Raised?
    ensures UploadFile(Some(id), bucketPath, Some(localFile), Some(fileName), RegularFile).calls == []
    ensures UploadFileIntended(Some(id), bucketPath, Some(localFile), Some(fileName), RegularFile, Ok(bucket), Ok(stored)) ==
              Traced(Response(201, "File uploaded successfully", Some(Opaque(stored))),
                     [GetBucketById(id), UploadObject(id, ObjectPath(bucketPath, fileName), localFile)])
  {
  }

  /** For any download that passes the guards, from a bucket that exists,
      with a service that serves the object: `download_file` as written
      reports 400 with an `AttributeError` and issues no download, while the
      intended form returns the content. */
  lemma DownloadDiverges(id: string, bucketPath: Option<string>, fileName: string, bucket: Payload, content: Payload)
    requires !Blank(Some(id)) && !Blank(Some(fileName))
    ensures DownloadFile(Some(id), bucketPath, Some(fileName), Ok(bucket)) ==
              Traced(Response(400, OnEnvelopeError("download")), [GetBucketById(id)])
    ensures DownloadFileIntended(Some(id), bucketPath, Some(fileName), Ok(bucket), Ok(content)) ==
              Traced(Response(200, "File downloaded successfully", Some(Opaque(content))),
                     [GetBucketById(id), DownloadObject(id, ObjectPath(bucketPath, fileName))])
  {
  }

  /** The same divergence for `update_file`. */
  lemma UpdateDiverges(id: string, bucketPath: Option<string>, localFile: string, fileName: string,
                       bucket: Payload, content: Payload)
    requires !Blank(Some(id)) && !Blank(Some(localFile)) && !Blank(Some(fileName))
    ensures UpdateFile(Some(id), bucketPath, Some(localFile), Some(fileName), RegularFile, Ok(bucket)) ==
              Traced(Returned(Response(400, OnEnvelopeError("update"))), [GetBucketById(id)])
    ensures UpdateFileIntended(Some(id), bucketPath, Some(localFile), Some(fileName), RegularFile, Ok(bucket), Ok(content)) ==
              Traced(Returned(Response(200, "File updated successfully", Some(Opaque(content)))),
                     [GetBucketById(id), UpdateObject(id, ObjectPath(bucketPath, fileName), localFile)])
  {
  }

  /** The same divergence for `copy_file`. */
  lemma CopyDiverges(id: string, fromPath: string, toPath: string, bucket: Payload, copied: Payload)
    requires !Blank(Some(id)) && !Blank(Some(fromPath)) && !Blank(Some(toPath))
    ensures CopyFile(Some(id), Some(fromPath), Some(toPath), Ok(bucket)) ==
              Traced(Response(400, OnEnvelopeError("copy")), [GetBucketById(id)])
    ensures CopyFileIntended(Some(id), Some(fromPath), Some(toPath), Ok(bucket), Ok(copied)) ==
              Traced(Response(200, "File copied successfully", Some(Opaque(copied))),
                     [GetBucketById(id), CopyObject(id, fromPath, toPath)])
  {
  }

  /** The same divergence for `move_file`. */
  lemma MoveDiverges(id: string, fromPath: string, toPath: string, bucket: Payload, moved: Payload)
    requires !Blank(Some(id)) && !Blank(Some(fromPath)) && !Blank(Some(toPath))
    ensures MoveFile(Some(id), Some(fromPath), Some(toPath), Ok(bucket)) ==
              Traced(Response(400, OnEnvelopeError("move")), [GetBucketById(id)])
    ensures MoveFileIntended(Some(id), Some(fromPath), Some(toPath), Ok(bucket), Ok(moved)) ==
              Traced(Response(200, "File moved successfully", Some(Opaque(moved))),
                     [GetBucketById(id), MoveObject(id, fromPath, toPath)])
  {
  }
}

=== FILE: text.dfy ===
/** The string operations the facades rely on: Python's `str.strip`, the
    blank-argument test `not s or not s.strip()` that opens every guard chain,
    `str.endswith`, and `str(int)` with an inverse for it.
 */
module Text {
  import opened Wrappers

  /** The characters CPython 3's `str.isspace` accepts, which are the ones
      `str.strip()` with no argument removes. */
  predicate IsSpace(c: char) {
    var n := c as int;
    || (0x09 <= n <= 0x0D)
    || (0x1C <= n <= 0x20)
    || n == 0x85 || n == 0xA0 || n == 0x1680
    || (0x2000 <= n <= 0x200A)
    || n == 0x2028 || n == 0x2029 || n == 0x202F || n == 0x205F || n == 0x3000
  }

  predicate AllSpace(s: string) {
    forall i :: 0 <= i < |s| ==> IsSpace(s[i])
  }

  /** `s.lstrip()`: drops the longest all-whitespace prefix. */
  function TrimLeft(s: string): (r: string)
    ensures |r| <= |s| && r == s[|s| - |r|..] && AllSpace(s[..|s| - |r|])
    ensures r == [] || !IsSpace(r[0])
  {
    if |s| > 0 && IsSpace(s[0]) then
      var r := TrimLeft(s[1..]);
      assert s[..|s| - |r|] == [s[0]] + s[1..][..|s| - 1 - |r|];
      r
    else
      s
  }

  /** `s.rstrip()`: drops the longest all-whitespace suffix. */
  function TrimRight(s: string): (r: string)
    ensures |r| <= |s| && r == s[..|r|] && AllSpace(s[|r|..])
    ensures r == [] || !IsSpace(r[|r| - 1])
  {
    if |s| > 0 && IsSpace(s[|s| - 1]) then
      var r := TrimRight(s[..|s| - 1]);
      assert s[|r|..] == s[..|s| - 1][|r|..] + [s[|s| - 1]];
      r
    else
      s
  }

  /** `s.strip()`. */
  function Strip(s: string): string {
    TrimRight(TrimLeft(s))
  }

  /** The guard every facade applies to a required string argument:
      `not s or not s.strip()`, true for `None`, for the empty string and for
      a string made only of whitespace. */
  predicate Blank(s: Option<string>) {
    s.None? || s.value == [] || Strip(s.value) == []
  }

  /** Stripping leaves nothing exactly when every character is whitespace. */
  lemma StripEmptyIffAllSpace(s: string)
    ensures Strip(s) == [] <==> AllSpace(s)
  {
    var t := TrimLeft(s);
    var k := |s| - |t|;
    var u := TrimRight(t);
    if !AllSpace(s) {
      var i :| 0 <= i < |s| && !IsSpace(s[i]);
      assert t[i - k] == s[i];
    }
  }

  /** The blank test holds exactly for `None` and for all-whitespace strings
      (the empty string among them). */
  lemma BlankIffAllSpace(s: Option<string>)
    ensures Blank(s) <==> s.None? || AllSpace(s.value)
  {
    if s.Some? {
      StripEmptyIffAllSpace(s.value);
    }
  }

  /** `s.endswith(suffix)`. */
  predicate EndsWith(s: string, suffix: string) {
    |suffix| <= |s| && s[|s| - |suffix|..] == suffix
  }

  /** A concatenation starts with its left part and ends with its right part. */
  lemma ConcatSplits(a: string, b: string)
    ensures |a| <= |a + b| && (a + b)[..|a|] == a
    ensures EndsWith(a + b, b)
  {
    assert (a + b)[|a|..] == b;
  }

  /** Prepending text keeps a suffix. */
  lemma EndsWithExtend(a: string, b: string, c: string)
    requires EndsWith(b, c)
    ensures EndsWith(a + b, c)
  {
    assert (a + b)[|a + b| - |c|..] == b[|b| - |c|..];
  }

  predicate IsDigit(c: char) {
    '0' <= c <= '9'
  }

  function DigitChar(d: nat): (c: char)
    requires d < 10
    ensures IsDigit(c)
  {
    ('0' as int + d) as char
  }

  function DigitValue(c: char): (d: nat)
    requires IsDigit(c)
    ensures d < 10 && DigitChar(d) == c
  {
    (c as int - '0' as int) as nat
  }

  predicate AllDigits(s: string) {
    forall i :: 0 <= i < |s| ==> IsDigit(s[i])
  }

  /** The decimal digits of `n`, most significant first, no leading zeros. */
  function NatDigits(n: nat): (s: string)
    ensures |s| > 0 && AllDigits(s)
  {
    if n < 10 then [DigitChar(n)] else NatDigits(n / 10) + [DigitChar(n % 10)]
  }

  /** Python's `str(n)` for an `int`. */
  function Decimal(n: int): string {
    if n < 0 then "-" + NatDigits(-n) else NatDigits(n)
  }

  /** The number a non-empty run of decimal digits denotes. */
  function DigitsValue(s: string): nat
    requires |s| > 0 && AllDigits(s)
  {
    if |s| == 1 then DigitValue(s[0])
    else DigitsValue(s[..|s| - 1]) * 10 + DigitValue(s[|s| - 1])
  }

  /** Reads back an optionally signed run of decimal digits. */
  function ParseDecimal(s: string): Option<int> {
    if |s| > 1 && s[0] == '-' && AllDigits(s[1..]) then Some(0 - DigitsValue(s[1..]))
    else if |s| > 0 && AllDigits(s) then Some(DigitsValue(s))
    else None
  }

  lemma {:induction false} NatDigitsValue(n: nat)
    ensures DigitsValue(NatDigits(n)) == n
  {
    if n >= 10 {
      var s := NatDigits(n);
      var prefix := NatDigits(n / 10);
      assert s[..|s| - 1] == prefix;
      NatDigitsValue(n / 10);
      assert DigitValue(DigitChar(n % 10)) == n % 10;
    } else {
      assert DigitValue(DigitChar(n)) == n;
    }
  }

  /** `str(n)` can be read back: the printed form of an integer determines it. */
  lemma DecimalRoundTrip(n: int)
    ensures ParseDecimal(Decimal(n)) == Some(n)
  {
    if n < 0 {
      var s := Decimal(n);
      assert s[1..] == NatDigits(-n);
      NatDigitsValue(-n);
    } else {
      NatDigitsValue(n);
    }
  }

  /** No printed integer contains a space. */
  lemma DecimalHasNoSpace(n: int)
    ensures ' ' !in Decimal(n)
  {
  }
}

=== FILE: types.dfy ===
/** The response envelope every facade method returns (`GenericResponse`), the
    other values a Python method of this code can hand back, and the values
    that travel inside envelopes.
 */
module Types {
  import opened Wrappers
  import opened Text

  /** An object returned by the remote client library. This code never looks
      inside it; the model knows it only by the text `str()` gives for it. */
  datatype Payload = Payload(text: string)

  /** A column value in a table row or an equality filter. */
  datatype Value = IntVal(i: int) | StrVal(s: string) | BoolVal(b: bool) | NullVal

  /** Python truthiness of a column value. */
  predicate Truthy(v: Value) {
    match v
    case IntVal(i) => i != 0
    case StrVal(s) => s != []
    case BoolVal(b) => b
    case NullVal => false
  }

  type Row = map<string, Value>

  /** One entry of the remote bucket listing; only `id` is read by this code. */
  datatype Bucket = Bucket(id: string, name: string, public: bool)

  /** What an envelope's `data` field carries. */
  datatype Data =
    | Opaque(payload: Payload)
    | Buckets(buckets: seq<Bucket>)
    | Rows(rows: seq<Row>)
    | SignedIn(userId: string, accessToken: string, refreshToken: string,
               expiresIn: int, tokenType: string, status: int)

  /** `GenericResponse`: an HTTP-style status, a message, and an optional
      payload and row count. */
  datatype Envelope = Envelope(status: int, message: string, data: Option<Data>, count: Option<int>)

  /** The `GenericResponse` constructor: status and message are stored as given;
      `data` and `count` are `None` unless supplied. */
  function Response(status: int, message: string, data: Option<Data> := None, count: Option<int> := None): (r: Envelope)
    ensures r.status == status && r.message == message
    ensures r.data == data && r.count == count
  {
    Envelope(status, message, data, count)
  }

  /** A caller that passes only status and message gets an envelope with
      neither payload nor count. */
  lemma ResponseDefaults(status: int, message: string)
    ensures Response(status, message).data.None? && Response(status, message).count.None?
  {
  }

  /** What a Python method of this code can end with: an envelope, a bare
      `None`, a bare string, or an exception that escapes to the caller. */
  datatype Reply = Returned(envelope: Envelope) | ReturnedNone | ReturnedText(text: string) | Raised(error: string)

  /** The text of Python's `AttributeError` for `obj.attr` when `obj`'s type
      has no such attribute. */
  function NoAttribute(typeName: string, attr: string): string {
    "'" + typeName + "' object has no attribute '" + attr + "'"
  }

  /** A validation failure: status 400 with `message`, and no remote call. */
  function Reject<C>(message: string): (r: Traced<Envelope, C>)
    ensures r.calls == [] && r.result.status == 400 && r.result.message == message
    ensures r.result.data.None? && r.result.count.None?
  {
    Traced(Response(400, message), [])
  }

  /** `str(x)` for an optional value: `None` prints as "None". */
  function OptionText<T>(x: Option<T>, show: T -> string): string {
    match x
    case None => "None"
    case Some(v) => show(v)
  }

  /** The separator `__str__` puts between fields. */
  const Separator: string := " - "

  /** The leading fields of `__str__`: status and message. */
  function RenderHead(e: Envelope): string {
    Decimal(e.status) + Separator + e.message
  }

  /** The trailing fields of `__str__`: data and count, each after a separator. */
  function RenderTail(e: Envelope, show: Data -> string): string {
    Separator + OptionText(e.data, show) + Separator + OptionText(e.count, Decimal)
  }

  /** `GenericResponse.__str__`: "status - message - data - count". How a
      payload prints is up to its class in the client library, so it is the
      parameter `show`. */
  function Render(e: Envelope, show: Data -> string): (r: string)
    ensures |r| == |RenderHead(e)| + |RenderTail(e, show)|
    ensures |RenderHead(e)| <= |r| && r[..|RenderHead(e)|] == RenderHead(e)
    ensures EndsWith(r, RenderTail(e, show))
  {
    var head := RenderHead(e);
    var tail := RenderTail(e, show);
    ConcatSplits(head, tail);
    head + tail
  }

  /** A missing count prints as "None" at the very end, a missing payload
      as "None" just before it, and a present count as its decimal text. */
  lemma RenderEndings(e: Envelope, show: Data -> string)
    ensures e.count.None? ==> EndsWith(Render(e, show), " - None")
    ensures e.data.None? && e.count.None? ==> EndsWith(Render(e, show), " - None - None")
    ensures e.count.Some? ==> EndsWith(Render(e, show), " - " + Decimal(e.count.value))
  {
    var r := Render(e, show);
    var tail := RenderTail(e, show);
    var last := Separator + OptionText(e.count, Decimal);
    ConcatSplits(Separator + OptionText(e.data, show), last);
    EndsWithExtend(r[..|r| - |tail|], tail, last);
    assert r == r[..|r| - |tail|] + tail;
  }

  /** The text before the first space. */
  function FirstField(s: string): (r: string)
    ensures |r| <= |s| && r == s[..|r|] && ' ' !in r
  {
    if s == [] || s[0] == ' ' then [] else [s[0]] + FirstField(s[1..])
  }

  lemma {:induction false} FirstFieldOfJoin(a: string, s: string)
    requires |a| < |s| && s[..|a|] == a && ' ' !in a && s[|a|] == ' '
    ensures FirstField(s) == a
  {
    if a != [] {
      assert s[1..][..|a| - 1] == a[1..];
      FirstFieldOfJoin(a[1..], s[1..]);
    }
  }

  /** The status survives printing: the first field of an envelope's string
      form reads back as its status code. */
  lemma RenderStatusRoundTrip(e: Envelope, show: Data -> string)
    ensures ParseDecimal(FirstField(Render(e, show))) == Some(e.status)
  {
    var d := Decimal(e.status);
    var r := Render(e, show);
    var head := RenderHead(e);
    assert head == d + (Separator + e.message);
    assert head[..|d|] == d && head[|d|] == ' ';
    assert r[..|d|] == head[..|d|] && r[|d|] == head[|d|];
    DecimalHasNoSpace(e.status);
    FirstFieldOfJoin(d, r);
    DecimalRoundTrip(e.status);
  }
}

=== FILE: wrappers.dfy ===
/** Small value types shared by every facade: an optional value, the outcome of
    one remote call, and a result paired with the remote calls that produced it.
 */
module Wrappers {

  /** Python's `None` or a value. */
  datatype Option<+T> = None | Some(value: T)

  /** What one call into the remote client library did: it returned a value,
      or it raised an exception whose `str(e)` is `message`. */
  datatype Outcome<+T> = Ok(value: T) | Fault(message: string)

  /** The value a facade method hands back, together with the remote calls it
      issued, in order. An empty `calls` means nothing left the process. */
  datatype Traced<+T, +C> = Traced(result: T, calls: seq<C>)
}
